=== FILE: README.md ===
# Event scheduler core, modelled in Dafny

This project models the core of an in-memory event scheduler (an "agenda")
written in JavaScript on top of the `node-schedule` trigger engine. A caller
registers named actions by a partial time spec: any of second, minute, hour,
day, month and year. The caller can later cancel, reactivate or modify them
one field at a time. The model covers six pieces:

- **The rule manager** (`RuleManager`, from `AdministradorReglas.js`). It merges a
  partial spec into a recurrence rule. It processes the units from finest to
  coarsest and infers the units the caller left unset. It keeps a per-event
  history of the spec keys that were handed in as "every value" (`null`). It
  also stores the last composed rule per event.
- **The field-value validator** (`RuleData`, from `Regla.js`).
- **The event-name validator** (`EventName`, from `nombreEvento.js`).
- **The event-record validator** (`EventRecord`, from `Evento.js`).
- **The event manager** (`EventManager`, from `AdministradorEventos.js`). It is a
  two-map state machine, with active and cancelled jobs, that supports
  schedule, cancel, reactivate and modify.
- **The public facade** (`Agenda`, from `Agenda.js`). It combines the pieces
  above. The order in which it calls them is part of what the model states.

Everything is modelled with immutable datatypes and pure functions. Each
operation returns a `Result` that holds either the new state or the error
the source would throw. `Calendar` holds the shared vocabulary: the `Field`
enum, ordered `Second < Minute < Hour < Day < Month < Year`; the spec-value
kinds `NullLike | Num | NonNumeric`, which abstract JavaScript's `null`,
`undefined`, `Number` and `isNaN`; and a `Rule` with six `Option<int>` fields
and a timezone. `None` plays the role of the source's `null`. That value means
both "unset" and "every value of this unit". `Errors` tags each thrown error
by its message.

The trigger engine is a parameter. The job handle that `scheduleJob` returns
is an input `Option<Handle>`, where `None` means the engine returned null.
Every other engine call is returned as an `EngineCall` value, because the
source ignores their results. Calls to the engine are the scheduler's only
I/O. The fresh `new RecurrenceRule()` is the `defaultRule` field of the rule
manager's state, because its defaults belong to the library.

### Source functions and their Dafny counterparts

- `registrarSeleccionesCompletas` is `RuleManager.Record`; its `== null`
  filter is `RuleManager.SelectedAll`.
- `tieneValor` is `RuleManager.Explicit` when it is asked about the spec's
  own key, and `RuleManager.HasValue` when it is asked about a neighbouring
  unit.
- `valorSegunOtrosValores` is `RuleManager.Infer`.
- `construirReglaSegundo` through `construirReglaAnio` are
  `RuleManager.Build`, one instance per unit.
- `construirRegla` is `RuleManager.Compose`, with `RuleManager.BuildAll` for
  the six steps.
- `buscarRegla` is `RuleManager.Find`, and `agregarRegla` is `RuleManager.Add`.
- `getSeleccionCompleta` and `seleccionarTodos` are `RuleManager.FullSelection`
  and `Agenda.SelectAll`.
- `crearRegla` and `esUnidadTiempoValida` are `RuleData.CreateTimes` and
  `RuleData.IsValidUnit`.
- `crearNombreEvento` is `EventName.CreateName`.
- `crearEvento` is `EventRecord.CreateEvent`.
- `validarEvento` and `buscarEvento` are `EventManager.Lookup`; the check of
  the engine's result is inside `EventManager.Schedule`.
- `agendarEvento`, `modificarEvento`, `cancelarEvento` and `reactivarEvento`
  are `EventManager.Schedule`, `Modify`, `Cancel` and `Reactivate`.
- `agendar` together with the ten `agendar*` operations is `Agenda.Schedule`
  and `Agenda.ScheduleVariant`, with one `Agenda.Variant` per operation; the object
  literal each of them builds is `Agenda.SpecFor`.
- `modificar` together with the six `modificar*` operations is
  `Agenda.Modify`, with the unit as a parameter.
- `cancelar` is `Agenda.Cancel`, and `reactivar` is `Agenda.Reactivate`.

### Behaviour worth noting

- The history records every spec key whose value is loosely `null`. That
  includes a positional argument left `undefined`: for example,
  `agendarHorario(name, 5, undefined, 3, f)` records the minute
  (`Agenda.ScheduleVariant`).
- The history is recorded before the values are validated, so a call that
  then fails with invalid data has still recorded its null-like keys
  (`RuleManager.Compose`).
- A unit whose only neighbours with values are finer stays `null`: that
  branch of the inference returns `null`, which the unset unit already held.
  Only coarser units ever change an inferred unit, and the inferred value is
  always `0` or `null` (`RuleManager.FinerUnitsNeverDecide`,
  `RuleManager.InferenceYieldsZeroOrNull`).
- Scheduling an event under a name that is currently cancelled writes only
  the active map, so the name is then both active and cancelled
  (`EventManager.ScheduleOverCancelledKeepsBoth`).
- The history, once it holds a unit, makes every later composition that
  omits that unit reset it to `null`. This happens even after an explicit
  number was set in between (`RuleManager.OmittedSelectedUnitResets`).
- The facade never validates a name itself. Scheduling validates it only
  inside the event manager, after composition has recorded the history; the
  modify, cancel and reactivate operations never validate it.
- The name check uses JavaScript's `\W`, so `_` is accepted along with ASCII
  letters and digits, although the error messages ask for alphanumeric
  characters. Accented letters are rejected.

## Model

| member | source | states |
|---|---|---|
| `RuleData.CreateTimes` | src/agenda-node/modelos/Regla.js:15-59 | accepted iff no field is non-numeric (null and undefined pass); on failure the error names the first refused field in the order second…year, every finer one being valid; on success each field equals its argument, with no range check |
| `RuleData.Requested` | src/agenda-node/modelos/Regla.js:21-51 | the rule built from a spec holds, on each of the six units, the number the spec gives under that unit's key, and null when the key is absent or null-like (it is reached only once every value is null-like or numeric) |
| `RuleData.AcceptsNullAndOutOfRange` | src/agenda-node/modelos/Regla.js:56-58 | null is accepted as a field value and 75 or -3 pass unchanged: only numeric-ness is checked |
| `RuleData.FirstRefusalWins` | src/agenda-node/modelos/Regla.js:18-22 | a non-numeric second is the reported error whatever the other fields hold |
| `EventName.HasSpace` | src/agenda-node/modelos/nombreEvento.js:16 | true iff some character is in JavaScript's `\s` class |
| `EventName.HasNonWord` | src/agenda-node/modelos/nombreEvento.js:21 | true iff some character is outside `[A-Za-z0-9_]` |
| `EventName.SpaceIsNotWord` | src/agenda-node/modelos/nombreEvento.js:16-23 | every whitespace character is also a non-word character, so the whitespace check only decides which error is reported |
| `EventName.CreateName` | src/agenda-node/modelos/nombreEvento.js:8-26 | accepted iff present, non-empty and all word characters, and then returned unchanged; a missing or empty name gets the missing-name error, one with whitespace the whitespace error, otherwise one with another non-word character the non-word error |
| `EventName.CreateNameIdempotent` | src/agenda-node/modelos/nombreEvento.js:25 | validating an accepted name again accepts it again, unchanged |
| `EventName.MissingNames` | src/agenda-node/modelos/nombreEvento.js:11-13 | `""` and an absent name get the missing-name error |
| `EventName.SpacedName` | src/agenda-node/modelos/nombreEvento.js:16-18 | `"my event"` gets the whitespace error, not the non-word one |
| `EventName.SymbolName` | src/agenda-node/modelos/nombreEvento.js:21-23 | `"ev@nt"` gets the non-word error |
| `EventName.AccentedName` | src/agenda-node/modelos/nombreEvento.js:21-23 | a name with an accented letter gets the non-word error |
| `EventName.AcceptedNames` | src/agenda-node/modelos/nombreEvento.js:21-25 | `"evento1"` and `"ev_1"` are accepted |
| `EventRecord.CreateEvent` | src/agenda-node/modelos/Evento.js:13-35 | a missing rule, then a foreign rule, then a missing action, then a non-function action is reported before anything later is checked; with rule and action valid the outcome is the name validator's; on success the record holds exactly the given rule, action and name |
| `RuleManager.Record` | src/agenda-node/administradores/AdministradorReglas.js:16-26 | the event's history gains exactly the keys present in the spec with a value loosely equal to null, nothing is removed and other events' histories are unchanged |
| `RuleManager.Infer` | src/agenda-node/administradores/AdministradorReglas.js:149-158 | for an unset unit the inferred value is 0 or null, and it is 0 iff some coarser unit has a value in the rule, the spec or the history |
| `RuleManager.Build` | src/agenda-node/administradores/AdministradorReglas.js:28-147 | composing one unit changes no other unit; an explicit unit (numeric in the spec or in the history) takes the spec's value; otherwise a unit with a value keeps it; otherwise it becomes 0 iff it is not the second and a coarser unit has a value, else stays null |
| `RuleManager.CoarserOnlyReadsCoarser` | src/agenda-node/administradores/AdministradorReglas.js:36-45 | the coarser-value test depends only on the rule's coarser units |
| `RuleManager.BuildStepMatches` | src/agenda-node/administradores/AdministradorReglas.js:51-55 | a unit composed while it and its coarser units still hold their pre-call values matches the per-unit description `Expected` |
| `RuleManager.BuildAllMatchesExpected` | src/agenda-node/administradores/AdministradorReglas.js:182-187 | processing second, minute, hour, day, month, year in turn gives, on every unit, the per-unit description `Expected`: inference sees coarser units as they were before the call |
| `RuleManager.Compose` | src/agenda-node/administradores/AdministradorReglas.js:177-190 | the history gains the spec's null-like keys even when validation then fails; the store and configuration are untouched; it fails iff some value is non-numeric, with the validator's error; on success every unit is as `Expected` says against the given rule (a fresh one when none is given) and a set timezone is kept, an unset one taking the manager's |
| `RuleManager.Find` | src/agenda-node/administradores/AdministradorReglas.js:191-193 | a stored rule is found iff one was stored; an unknown name yields nothing |
| `RuleManager.Add` | src/agenda-node/administradores/AdministradorReglas.js:194-196 | last write wins; other names' rules, the history and the configuration are unchanged |
| `RuleManager.HistoryNeverShrinks` | src/agenda-node/administradores/AdministradorReglas.js:16-26 | no event's history loses an entry through a composition, successful or not |
| `RuleManager.SecondNeverInferred` | src/agenda-node/administradores/AdministradorReglas.js:28-33 | the second takes the spec's number, is reset to null if in the history, and otherwise keeps the start rule's value: it is never inferred |
| `RuleManager.YearNeverInferredToZero` | src/agenda-node/administradores/AdministradorReglas.js:127-147 | an unset year the spec does not mention stays unset, since no unit is coarser |
| `RuleManager.InferenceYieldsZeroOrNull` | src/agenda-node/administradores/AdministradorReglas.js:149-158 | a composed unit that was unset and not explicit ends 0 or null, and 0 exactly when it is not the second and some coarser unit had a value before the call |
| `RuleManager.FinerUnitsNeverDecide` | src/agenda-node/administradores/AdministradorReglas.js:149-158 | two rules that agree on a unset unit's coarser units infer the same value for it, whatever their finer units hold |
| `RuleManager.FullSelectionIsRecorded` | src/agenda-node/administradores/AdministradorReglas.js:12-32 | a unit given the select-all value is recorded in the history and is null in the composed rule |
| `RuleManager.HistoryResetsOmittedUnit` | src/agenda-node/administradores/AdministradorReglas.js:51-52 | a unit in the event's history that a valid spec omits is reset to null, and stays in the history |
| `RuleManager.OmittedSelectedUnitResets` | src/agenda-node/administradores/AdministradorReglas.js:160-171 | after a unit was selected "every value", a later explicit number sets it, but any composition after that which omits it resets it to null |
| `RuleManager.FineOnlySpec` | src/agenda-node/administradores/AdministradorReglas.js:35-56 | composing only a second on a fresh rule with no history leaves every other unit null |
| `RuleManager.CoarseOnlySpec` | src/agenda-node/administradores/AdministradorReglas.js:35-102 | composing only a day on a fresh rule with no history sets minute and hour to 0, keeps the fresh second and leaves month and year unset |
| `EventManager.Lookup` | src/agenda-node/administradores/AdministradorEventos.js:13-23 | found iff the name has an entry, giving its handle; otherwise the null-event not-found error |
| `EventManager.Schedule` | src/agenda-node/administradores/AdministradorEventos.js:27-31 | a record validation error is thrown first; then a null engine handle gives the engine-rejected error; on success the name's active entry is the new handle, the cancelled map and other names are untouched, and disjointness is kept when the name was not cancelled |
| `EventManager.Modify` | src/agenda-node/administradores/AdministradorEventos.js:33-44 | an active name is rescheduled in place with both maps unchanged; otherwise a cancelled name is reactivated with the same rule; a name in neither map gets the not-found error; disjointness is kept |
| `EventManager.Cancel` | src/agenda-node/administradores/AdministradorEventos.js:45-50 | succeeds iff the name is active; it moves to the cancelled map with the same handle, other names untouched, disjointness kept; otherwise not-found with no change |
| `EventManager.Reactivate` | src/agenda-node/administradores/AdministradorEventos.js:51-56 | succeeds iff the name is cancelled; it moves to the active map with the same handle and the engine resumes it under the given rule; otherwise not-found with no change |
| `EventManager.CancelThenReactivate` | src/agenda-node/administradores/AdministradorEventos.js:45-56 | cancelling an active job and reactivating it restores both maps exactly |
| `EventManager.ReactivateThenCancel` | src/agenda-node/administradores/AdministradorEventos.js:45-56 | reactivating a cancelled job and cancelling it again restores both maps exactly |
| `EventManager.ScheduleOverCancelledKeepsBoth` | src/agenda-node/administradores/AdministradorEventos.js:31 | scheduling under a cancelled name leaves it in both maps |
| `Agenda.Schedule` | src/agenda-node/Agenda.js:16-19 | the history gains the spec's null-like keys whatever the outcome; a failure leaves store and events untouched; a non-numeric value fails with the validator's error for the first refused unit, second…year; with valid values the action errors come before the name's, then the engine's rejection; on success the stored rule is composed from the fresh rule and the name is active with the engine's handle |
| `Agenda.ScheduleVariant` | src/agenda-node/Agenda.js:47-155 | every argument of the variant left null or undefined is recorded in the history; on success each of its arguments is in the stored rule, numbers as given and null-like ones as null |
| `Agenda.Modify` | src/agenda-node/Agenda.js:21-24 | a non-numeric value fails with nothing but the history changed; otherwise the rule, composed against the stored one or a fresh one, is stored even when the event manager then fails; it succeeds iff the name is active (rescheduled in place) or cancelled (reactivated with the new rule); other events' histories and stored rules are unchanged |
| `Agenda.Cancel` | src/agenda-node/Agenda.js:161-163 | store and history untouched; succeeds iff the name is active, moving its handle to the cancelled map |
| `Agenda.Reactivate` | src/agenda-node/Agenda.js:169-172 | store and history untouched; succeeds iff the name is cancelled, and the engine resumes its handle under the stored rule as stored, or undefined when none is |
| `Agenda.SelectAllMeansEveryValue` | src/agenda-node/Agenda.js:32-34 | passing the select-all value records the unit in the history and leaves it null in the stored rule |
| `Agenda.ScheduleIgnoresStoredRule` | src/agenda-node/Agenda.js:47-155 | two schedulers differing only in their stored rules give the same outcome and store the same rule |
| `Agenda.ScheduleCancelReactivate` | src/agenda-node/Agenda.js:161-172 | after a successful schedule, cancel and then reactivate both succeed, the name is active under the original handle and the engine resumes it with the rule stored at scheduling |
| `Agenda.ScheduleBySecondAlone` | src/agenda-node/Agenda.js:97-100 | scheduling by second alone on a fresh rule with no history stores a rule fixing the second with every other unit null |
| `Agenda.ModifySecondAlone` | src/agenda-node/Agenda.js:181-185 | modifying the second of a rule that fixes only the second changes only the second |
| `Agenda.SecondScenario` | src/agenda-node/Agenda.js:161-185 | schedule "e1" by second 10, modify to 20, cancel, modify to 30: the last modify reactivates the job under its original handle with second 30 and every other unit null |

## Left out

- `src/main.js`: a timer-driven demonstration with no logic of its own.
- The `node-schedule` engine: firing, timezone application, what `reschedule`, `cancel` and `schedule` do to a job, and the defaults of `new RecurrenceRule()`. The engine's handle is an input, the fresh rule is the `defaultRule` parameter, and the other calls are recorded as `EngineCall` values.
- Asynchronous firing of actions and concurrent use of the scheduler.
- Actions are opaque tokens. The `instanceof RecurrenceRule` and `typeof 'function'` checks become the `Missing | Foreign | Given` kinds of `Arg`.
- JavaScript coercion: values are abstracted into `NullLike | Num | NonNumeric`. Fractional numbers, numeric strings and booleans, which `Number` accepts, are represented by an integer. The source stores such a value in the rule as given rather than as a number.
- `null` and `undefined` are not told apart in rule fields, because the source only compares them loosely.
- The history is a list with repeats in the source. It is modelled as a set, because only membership is ever read.
- Names that are properties of `Object.prototype` (`toString`, `constructor`, `__proto__`, `hasOwnProperty`, …) are outside the model. The source keeps its events, rules and history in plain objects (src/agenda-node/administradores/AdministradorEventos.js:10-11, src/agenda-node/administradores/AdministradorReglas.js:13-14), so such a name is found through the prototype even on a fresh agenda, and `__proto__` replaces the prototype instead of adding an entry. The Dafny maps hold only the entries written, so for these names `Lookup` and `Find` answer "absent" where the source finds an inherited value. In the event manager, the inherited value is then called as a job (`reschedule`, `cancel` or `schedule`, src/agenda-node/administradores/AdministradorEventos.js:36, 47, 53), which throws a `TypeError`. In the rule manager, a modify first composes onto the inherited value in place (src/agenda-node/administradores/AdministradorReglas.js:181-187). `HistoryOf` agrees with the source for every such name except `__proto__`, because the source reads and writes the history only through an `Array.isArray` guard (src/agenda-node/administradores/AdministradorReglas.js:19, 166), so an inherited non-array counts as absent there too.
- A name that is not a string is not modelled in the facade or in the maps. The validators take `Option<string>`, so a missing name is covered there.
- The error objects' constructors (`errors/` modules) are not part of this model. Errors are tags.
- The second argument of `crearRegla` is always undefined, because its only caller passes none. It is modelled as such.
- Rule fields other than the six units and the timezone, such as the day of week, are never touched by the source.
- Aliasing of one rule object by the store and by the scheduled job is not modelled. A value model gives the same results, because composition throws before it mutates the rule.
- The rethrow branch of `modificarEvento` is kept but unreachable, because the lookup only throws the null-event error and engine calls are not modelled as throwing.

=== FILE: agenda.dfy ===
/** The public scheduler (Agenda.js): wires the rule manager and the event
    manager together. The order in which it calls them is part of its
    behaviour. */
module Agenda {
  import opened Wrappers
  import opened Calendar
  import opened Errors
  import opened RuleData
  import opened EventName
  import opened EventRecord
  import R = RuleManager
  import E = EventManager

  /** The scheduler's state: its rule manager and its event manager. */
  datatype State = State(rules: R.Rules, events: E.Events)

  /** The state after a public operation, and the engine call it made or the
      error it threw. */
  datatype Reply = Reply(state: State, outcome: Result<E.EngineCall, Error>)

  /** The value callers pass for "every value of this unit". */
  function SelectAll(): SpecValue
  {
    R.FullSelection
  }

  /** Schedules an event from a spec: composes it against a fresh rule (never
      the stored one, though the event's history carries over), hands the
      rule to the event manager, and stores it only when that succeeded. The
      name is validated only inside the event manager, after composition has
      already recorded the history. */
  function Schedule(a: State, name: string, spec: Spec, action: Arg<Action>,
                    engine: Option<E.Handle>): (r: Reply)
    ensures r.state.rules.tz == a.rules.tz && r.state.rules.defaultRule == a.rules.defaultRule
    ensures R.HistoryOf(r.state.rules.history, name) == R.HistoryOf(a.rules.history, name) + R.SelectedAll(spec)
    ensures forall n :: n != name ==> R.HistoryOf(r.state.rules.history, n) == R.HistoryOf(a.rules.history, n)
    ensures r.outcome.Failure? ==> r.state.rules.store == a.rules.store && r.state.events == a.events
    ensures !(forall f :: IsValidUnit(ValueOf(spec, f))) ==>
      r.outcome == Failure(CreateTimes(spec).error)
    ensures (forall f :: IsValidUnit(ValueOf(spec, f))) ==>
      && (action.Missing? ==> r.outcome == Failure(InvalidData(MissingAction)))
      && (action.Foreign? ==> r.outcome == Failure(InvalidData(ForeignAction)))
      && (action.Given? && CreateName(Some(name)).Failure? ==>
            r.outcome == Failure(CreateName(Some(name)).error))
      && (action.Given? && CreateName(Some(name)).Success? && engine.None? ==>
            r.outcome == Failure(NullEvent(EngineRejected)))
      && (r.outcome.Success? <==> action.Given? && CreateName(Some(name)).Success? && engine.Some?)
    ensures r.outcome.Success? ==>
      && R.Find(r.state.rules, name).Some?
      && (forall n :: n != name ==> R.Find(r.state.rules, n) == R.Find(a.rules, n))
      && var rule := R.Find(r.state.rules, name).value;
      && (forall f :: rule.times.Get(f) == R.Expected(f, Requested(spec),
            R.HistoryOf(r.state.rules.history, name), a.rules.defaultRule.times))
      && rule.tz == (if a.rules.defaultRule.tz.Some? then a.rules.defaultRule.tz else a.rules.tz)
      && E.Get(r.state.events.active, name) == engine
      && r.state.events.cancelled == a.events.cancelled
      && E.OthersUnchanged(a.events, r.state.events, name)
      && r.outcome.value == E.ScheduleJob(name, rule, action.value, engine.value)
  {
    var c := R.Compose(a.rules, spec, name, None);
    match c.result
    case Failure(e) => Reply(a.(rules := c.rules), Failure(e))
    case Success(rule) =>
      match E.Schedule(a.events, name, Given(rule), action, engine)
      case Failure(e) => Reply(a.(rules := c.rules), Failure(e))
      case Success(applied) => Reply(State(R.Add(c.rules, name, rule), applied.events), Success(applied.call))
  }

  /** The public schedule operations, told apart by the keys of the spec
      object each one builds from its positional arguments. */
  datatype Variant =
    | DateTime | Date | Time | DayHour
    | BySecond | ByMinute | ByHour | ByDay | ByMonth | ByYear

  function Keys(v: Variant): set<Field>
  {
    match v
    case DateTime => {Second, Minute, Hour, Day, Month, Year}
    case Date => {Day, Month, Year}
    case Time => {Second, Minute, Hour}
    case DayHour => {Hour, Day}
    case BySecond => {Second}
    case ByMinute => {Minute}
    case ByHour => {Hour}
    case ByDay => {Day}
    case ByMonth => {Month}
    case ByYear => {Year}
  }

  /** The spec object a variant builds: every one of its keys is present,
      holding the positional argument, undefined when the caller left it out. */
  function SpecFor(v: Variant, args: Spec): Spec
  {
    map f | f in Keys(v) :: ValueOf(args, f)
  }

  /** A public schedule operation. Every argument of the variant left null or
      undefined is recorded as a select-all request; on success each of its
      numeric arguments is in the stored rule and each null-like one is null
      there. */
  function ScheduleVariant(a: State, v: Variant, name: string, args: Spec, action: Arg<Action>,
                           engine: Option<E.Handle>): (r: Reply)
    ensures R.HistoryOf(r.state.rules.history, name)
         == R.HistoryOf(a.rules.history, name) + (set f | f in Keys(v) && ValueOf(args, f).NullLike?)
    ensures r.outcome.Success? ==>
      && R.Find(r.state.rules, name).Some?
      && forall f :: f in Keys(v) ==>
           R.Find(r.state.rules, name).value.times.Get(f) == Numeric(ValueOf(args, f))
  {
    var spec := SpecFor(v, args);
    var r := Schedule(a, name, spec, action, engine);
    assert R.SelectedAll(spec) == (set f | f in Keys(v) && ValueOf(args, f).NullLike?);
    r
  }

  /** A public modify operation for one unit: composes a one-key spec against
      the stored rule (a fresh one when none is stored), stores the result
      BEFORE asking the event manager, and then modifies the event, which
      falls back to reactivating a cancelled one. So a modify of an unknown
      name still writes the store, although it then fails. */
  function Modify(a: State, name: string, f: Field, v: SpecValue): (r: Reply)
    ensures r.state.rules.tz == a.rules.tz && r.state.rules.defaultRule == a.rules.defaultRule
    ensures R.HistoryOf(r.state.rules.history, name)
         == R.HistoryOf(a.rules.history, name) + (if v.NullLike? then {f} else {})
    ensures forall n :: n != name ==> R.HistoryOf(r.state.rules.history, n) == R.HistoryOf(a.rules.history, n)
    ensures forall n :: n != name ==> R.Find(r.state.rules, n) == R.Find(a.rules, n)
    ensures v.NonNumeric? ==>
      && r.outcome == Failure(InvalidData(NotNumeric(f)))
      && r.state.rules.store == a.rules.store && r.state.events == a.events
    ensures !v.NonNumeric? ==>
      && R.Find(r.state.rules, name).Some?
      && var rule := R.Find(r.state.rules, name).value;
      && (forall g :: rule.times.Get(g) == R.Expected(g, Requested(map[f := v]),
            R.HistoryOf(r.state.rules.history, name), R.StartRule(a.rules, R.Find(a.rules, name)).times))
      && (r.outcome.Success? <==> name in a.events.active || name in a.events.cancelled)
      && (r.outcome.Failure? ==> r.outcome.error == NullEvent(NoSuchEvent) && r.state.events == a.events)
      && (name in a.events.active ==>
            r.state.events == a.events && r.outcome == Success(E.Reschedule(a.events.active[name], rule)))
      && (name !in a.events.active && name in a.events.cancelled ==>
            && name !in r.state.events.cancelled
            && E.Get(r.state.events.active, name) == Some(a.events.cancelled[name])
            && E.OthersUnchanged(a.events, r.state.events, name)
            && r.outcome == Success(E.ResumeJob(a.events.cancelled[name], Some(rule))))
  {
    var spec := map[f := v];
    assert R.SelectedAll(spec) == (if v.NullLike? then {f} else {});
    assert ValueOf(spec, f) == v;
    var c := R.Compose(a.rules, spec, name, R.Find(a.rules, name));
    match c.result
    case Failure(e) => Reply(a.(rules := c.rules), Failure(e))
    case Success(rule) =>
      var stored := R.Add(c.rules, name, rule);
      match E.Modify(a.events, name, rule)
      case Failure(e) => Reply(State(stored, a.events), Failure(e))
      case Success(applied) => Reply(State(stored, applied.events), Success(applied.call))
  }

  /** Cancels an event; neither the store nor the history is touched. */
  function Cancel(a: State, name: string): (r: Reply)
    ensures r.state.rules == a.rules
    ensures r.outcome.Success? <==> name in a.events.active
    ensures r.outcome.Failure? ==>
      r.outcome.error == NullEvent(NoSuchEvent) && r.state.events == a.events
    ensures r.outcome.Success? ==>
      && name !in r.state.events.active
      && E.Get(r.state.events.cancelled, name) == Some(a.events.active[name])
      && E.OthersUnchanged(a.events, r.state.events, name)
      && r.outcome.value == E.CancelJob(a.events.active[name])
  {
    match E.Cancel(a.events, name)
    case Failure(e) => Reply(a, Failure(e))
    case Success(applied) => Reply(a.(events := applied.events), Success(applied.call))
  }

  /** Reactivates a cancelled event under its stored rule, passed unchanged
      (undefined when nothing is stored); the store and history are untouched. */
  function Reactivate(a: State, name: string): (r: Reply)
    ensures r.state.rules == a.rules
    ensures r.outcome.Success? <==> name in a.events.cancelled
    ensures r.outcome.Failure? ==>
      r.outcome.error == NullEvent(NoSuchEvent) && r.state.events == a.events
    ensures r.outcome.Success? ==>
      && name !in r.state.events.cancelled
      && E.Get(r.state.events.active, name) == Some(a.events.cancelled[name])
      && E.OthersUnchanged(a.events, r.state.events, name)
      && r.outcome.value == E.ResumeJob(a.events.cancelled[name], R.Find(a.rules, name))
  {
    match E.Reactivate(a.events, name, R.Find(a.rules, name))
    case Failure(e) => Reply(a, Failure(e))
    case Success(applied) => Reply(a.(events := applied.events), Success(applied.call))
  }

  /** Passing the select-all value for a unit records it in the event's
      history and leaves the unit null in the stored rule. */
  lemma SelectAllMeansEveryValue(a: State, v: Variant, name: string, args: Spec, f: Field,
                                 action: Arg<Action>, engine: Option<E.Handle>)
    requires f in Keys(v) && ValueOf(args, f) == SelectAll()
    ensures var r := ScheduleVariant(a, v, name, args, action, engine);
      && f in R.HistoryOf(r.state.rules.history, name)
      && (r.outcome.Success? ==> R.Find(r.state.rules, name).value.times.Get(f).None?)
  {
  }

  /** Scheduling composes from the fresh rule: two schedulers that differ
      only in their stored rules give the same outcome and store the same
      rule. */
  lemma ScheduleIgnoresStoredRule(a: State, b: State, name: string, spec: Spec,
                                  action: Arg<Action>, engine: Option<E.Handle>)
    requires a.events == b.events
    requires a.rules.(store := b.rules.store) == b.rules
    ensures Schedule(a, name, spec, action, engine).outcome == Schedule(b, name, spec, action, engine).outcome
    ensures R.Find(Schedule(a, name, spec, action, engine).state.rules, name)
         == R.Find(Schedule(b, name, spec, action, engine).state.rules, name)
            || Schedule(a, name, spec, action, engine).outcome.Failure?
  {
    var ca := R.Compose(a.rules, spec, name, None);
    var cb := R.Compose(b.rules, spec, name, None);
    assert ca.result == cb.result;
  }

  /** Schedule, cancel, reactivate: the event is active again under the same
      job handle, and the engine resumes it with the rule stored when it was
      scheduled. */
  lemma ScheduleCancelReactivate(a: State, name: string, spec: Spec, action: Arg<Action>,
                                 engine: Option<E.Handle>)
    requires Schedule(a, name, spec, action, engine).outcome.Success?
    ensures var s1 := Schedule(a, name, spec, action, engine).state;
      var s2 := Cancel(s1, name);
      var s3 := Reactivate(s2.state, name);
      && s2.outcome.Success?
      && s3.outcome.Success?
      && E.Get(s3.state.events.active, name) == engine
      && R.Find(s3.state.rules, name) == R.Find(s1.rules, name)
      && R.Find(s1.rules, name).Some?
      && s3.outcome.value == E.ResumeJob(engine.value, R.Find(s1.rules, name))
  {
  }

  /** Scheduling by second alone, with no history and a fresh rule whose
      other units are unset, stores a rule that fixes the second and leaves
      every other unit null. */
  lemma ScheduleBySecondAlone(a: State, name: string, k: int, action: Action, handle: E.Handle)
    requires IsValidName(name)
    requires R.HistoryOf(a.rules.history, name) == {}
    requires forall g :: g != Second ==> a.rules.defaultRule.times.Get(g).None?
    ensures var s := ScheduleVariant(a, BySecond, name, map[Second := Num(k)], Given(action), Some(handle));
      && s.outcome.Success?
      && R.HistoryOf(s.state.rules.history, name) == {}
      && E.Get(s.state.events.active, name) == Some(handle)
      && R.Find(s.state.rules, name).Some?
      && R.Find(s.state.rules, name).value.times == Times(Some(k), None, None, None, None, None)
  {
    var spec := SpecFor(BySecond, map[Second := Num(k)]);
    assert spec == map[Second := Num(k)];
    assert forall g :: IsValidUnit(ValueOf(spec, g));
    assert R.SelectedAll(spec) == {};
    var s := Schedule(a, name, spec, Given(action), Some(handle));
    R.SecondOnlyExpected(k, a.rules.defaultRule.times);
    var t := R.Find(s.state.rules, name).value.times;
    assert t == Times(t.Get(Second), t.Get(Minute), t.Get(Hour), t.Get(Day), t.Get(Month), t.Get(Year));
  }

  /** Modifying the second of an event whose stored rule fixes only the
      second, with no history, changes only the second. */
  lemma ModifySecondAlone(a: State, name: string, j: int, k: int)
    requires R.HistoryOf(a.rules.history, name) == {}
    requires R.Find(a.rules, name).Some?
    requires R.Find(a.rules, name).value.times == Times(Some(j), None, None, None, None, None)
    ensures var s := Modify(a, name, Second, Num(k));
      && R.HistoryOf(s.state.rules.history, name) == {}
      && R.Find(s.state.rules, name).Some?
      && R.Find(s.state.rules, name).value.times == Times(Some(k), None, None, None, None, None)
  {
    var s := Modify(a, name, Second, Num(k));
    assert Requested(map[Second := Num(k)]) == Times(Some(k), None, None, None, None, None);
    R.SecondOnlyExpected(k, R.Find(a.rules, name).value.times);
    var t := R.Find(s.state.rules, name).value.times;
    assert t == Times(t.Get(Second), t.Get(Minute), t.Get(Hour), t.Get(Day), t.Get(Month), t.Get(Year));
  }

  /** A walk-through: schedule "e1" by second 10, change its
      second to 20, cancel it, then change its second to 30, which falls back
      to reactivating it under its original job handle. */
  lemma SecondScenario(a: State, action: Action, handle: E.Handle)
    requires R.HistoryOf(a.rules.history, "e1") == {}
    requires forall g :: g != Second ==> a.rules.defaultRule.times.Get(g).None?
    ensures var s1 := ScheduleVariant(a, BySecond, "e1", map[Second := Num(10)], Given(action), Some(handle));
      var s2 := Modify(s1.state, "e1", Second, Num(20));
      var s3 := Cancel(s2.state, "e1");
      var s4 := Modify(s3.state, "e1", Second, Num(30));
      && s1.outcome.Success?
      && R.Find(s1.state.rules, "e1").value.times == Times(Some(10), None, None, None, None, None)
      && s2.outcome.Success?
      && R.Find(s2.state.rules, "e1").value.times == Times(Some(20), None, None, None, None, None)
      && s3.outcome.Success? && "e1" !in s3.state.events.active
      && s4.outcome.Success? && E.Get(s4.state.events.active, "e1") == Some(handle)
      && R.Find(s4.state.rules, "e1").value.times == Times(Some(30), None, None, None, None, None)
  {
    assert IsValidName("e1");
    var s1 := ScheduleVariant(a, BySecond, "e1", map[Second := Num(10)], Given(action), Some(handle));
    ScheduleBySecondAlone(a, "e1", 10, action, handle);
    var s2 := Modify(s1.state, "e1", Second, Num(20));
    ModifySecondAlone(s1.state, "e1", 10, 20);
    assert s2.outcome.Success?;
    var s3 := Cancel(s2.state, "e1");
    assert s3.outcome.Success?;
    var s4 := Modify(s3.state, "e1", Second, Num(30));
    ModifySecondAlone(s3.state, "e1", 20, 30);
    assert s4.outcome.Success?;
  }
}

=== FILE: calendar.dfy ===
/** The calendar units of a recurrence rule, the values a caller may hand in
    for them, and the rule they are composed into. */
module Calendar {
  import opened Wrappers

  /** The six units a rule constrains, from finest to coarsest. */
  datatype Field = Second | Minute | Hour | Day | Month | Year

  /** Position of a unit in the hierarchy: 0 for seconds up to 5 for years. */
  function Rank(f: Field): nat
  {
    match f
    case Second => 0
    case Minute => 1
    case Hour => 2
    case Day => 3
    case Month => 4
    case Year => 5
  }

  const AllFields: set<Field> := {Second, Minute, Hour, Day, Month, Year}

  lemma AllFieldsComplete(f: Field)
    ensures f in AllFields
  {
  }

  /** The units strictly coarser than `f`. */
  function Coarser(f: Field): (s: set<Field>)
    ensures forall g :: g in s <==> Rank(f) < Rank(g)
  {
    forall g ensures g in AllFields { AllFieldsComplete(g); }
    set g | g in AllFields && Rank(f) < Rank(g)
  }

  /** The units strictly finer than `f`. */
  function Finer(f: Field): (s: set<Field>)
    ensures forall g :: g in s <==> Rank(g) < Rank(f)
  {
    forall g ensures g in AllFields { AllFieldsComplete(g); }
    set g | g in AllFields && Rank(g) < Rank(f)
  }

  /** What an argument for a field amounts to once JavaScript has looked at it:
      null or undefined (also the "every value" marker), something `Number`
      turns into a number, or something it turns into NaN. */
  datatype SpecValue = NullLike | Num(n: int) | NonNumeric

  /** A partial time spec: the keys of the object literal handed to the rule
      manager, with their values. Which keys are present matters. */
  type Spec = map<Field, SpecValue>

  /** Reading a key the spec object does not have yields undefined. */
  function ValueOf(spec: Spec, f: Field): SpecValue
  {
    if f in spec then spec[f] else NullLike
  }

  /** Six field values. `None` is null or undefined: unset, which for the
      trigger engine also means "every value of this unit". */
  datatype Times = Times(second: Option<int>, minute: Option<int>, hour: Option<int>,
                         day: Option<int>, month: Option<int>, year: Option<int>)
  {
    function Get(f: Field): Option<int>
    {
      match f
      case Second => second
      case Minute => minute
      case Hour => hour
      case Day => day
      case Month => month
      case Year => year
    }

    function With(f: Field, v: Option<int>): (t: Times)
      ensures t.Get(f) == v
      ensures forall g :: g != f ==> t.Get(g) == Get(g)
    {
      match f
      case Second => this.(second := v)
      case Minute => this.(minute := v)
      case Hour => this.(hour := v)
      case Day => this.(day := v)
      case Month => this.(month := v)
      case Year => this.(year := v)
    }
  }

  /** A recurrence rule as far as the scheduler reads and writes it: the six
      fields and the timezone identifier. */
  datatype Rule = Rule(times: Times, tz: Option<string>)
}

=== FILE: errors.dfy ===
/** The errors the scheduler throws, tagged by the message they carry. */
module Errors {
  import opened Calendar

  /** Why an invalid-data error was raised. */
  datatype DataIssue =
    | NotNumeric(field: Field)
    | MissingRule
    | ForeignRule
    | MissingAction
    | ForeignAction
    | MissingName
    | NameHasSpace
    | NameNotWord

  /** Why a null-event error was raised: the engine returned no job, or the
      looked-up map has no entry for the name. */
  datatype NullCause = EngineRejected | NoSuchEvent

  datatype Error = InvalidData(issue: DataIssue) | NullEvent(cause: NullCause)
}

=== FILE: event_manager.dfy ===
/** The event manager (AdministradorEventos.js): active and cancelled jobs
    keyed by event name, over a trigger engine that is only seen through the
    calls made to it. */
module EventManager {
  import opened Wrappers
  import opened Calendar
  import opened Errors
  import opened EventRecord

  /** A job handle returned by the trigger engine, as an opaque token. */
  datatype Handle = Handle(id: nat)

  type Jobs = map<string, Handle>

  /** The manager's state: the active and the cancelled jobs. */
  datatype Events = Events(active: Jobs, cancelled: Jobs)

  /** The call an operation makes on the trigger engine. Its return value is
      ignored, except for the handle `scheduleJob` returns. */
  datatype EngineCall =
    | ScheduleJob(name: string, rule: Rule, action: Action, handle: Handle)
    | Reschedule(handle: Handle, rule: Rule)
    | CancelJob(handle: Handle)
    | ResumeJob(handle: Handle, resumeRule: Option<Rule>)

  /** The state after a successful operation and the engine call it made. */
  datatype Applied = Applied(events: Events, call: EngineCall)

  function Get(jobs: Jobs, name: string): Option<Handle>
  {
    if name in jobs then Some(jobs[name]) else None
  }

  /** No name is both active and cancelled. */
  predicate Disjoint(ev: Events)
  {
    ev.active.Keys !! ev.cancelled.Keys
  }

  /** Every name other than `name` has the same entries in both maps. */
  ghost predicate OthersUnchanged(ev: Events, ev': Events, name: string)
  {
    forall n :: n != name ==>
      Get(ev'.active, n) == Get(ev.active, n) && Get(ev'.cancelled, n) == Get(ev.cancelled, n)
  }

  /** Looks a name up in one of the maps; a missing entry is the null-event
      error. */
  function Lookup(jobs: Jobs, name: string): (r: Result<Handle, Error>)
    ensures r.Success? <==> name in jobs
    ensures r.Success? ==> r.value == jobs[name]
    ensures r.Failure? ==> r.error == NullEvent(NoSuchEvent)
  {
    if name in jobs then Success(jobs[name]) else Failure(NullEvent(NoSuchEvent))
  }

  /** Validates the event record, then asks the engine for a job; `engine` is
      the handle the engine returns, `None` when it returns null or undefined.
      On success the name's active entry is overwritten with the new handle
      and the cancelled map is untouched. */
  function Schedule(ev: Events, name: string, rule: Arg<Rule>, action: Arg<Action>,
                    engine: Option<Handle>): (r: Result<Applied, Error>)
    ensures CreateEvent(Some(name), rule, action).Failure? ==>
      r == Failure(CreateEvent(Some(name), rule, action).error)
    ensures CreateEvent(Some(name), rule, action).Success? && engine.None? ==>
      r == Failure(NullEvent(EngineRejected))
    ensures r.Success? <==> CreateEvent(Some(name), rule, action).Success? && engine.Some?
    ensures r.Success? ==>
      && Get(r.value.events.active, name) == engine
      && r.value.events.cancelled == ev.cancelled
      && OthersUnchanged(ev, r.value.events, name)
      && r.value.call == ScheduleJob(name, rule.value, action.value, engine.value)
    ensures r.Success? && Disjoint(ev) && name !in ev.cancelled ==> Disjoint(r.value.events)
  {
    var event :- CreateEvent(Some(name), rule, action);
    if engine.None? then Failure(NullEvent(EngineRejected))
    else
      var handle := engine.value;
      Success(Applied(Events(ev.active[name := handle], ev.cancelled),
                      ScheduleJob(event.name, event.rule, event.action, handle)))
  }

  /** Moves an active job to the cancelled map, keeping its handle, after
      telling the engine to stop it. */
  function Cancel(ev: Events, name: string): (r: Result<Applied, Error>)
    ensures r.Success? <==> name in ev.active
    ensures r.Failure? ==> r.error == NullEvent(NoSuchEvent)
    ensures r.Success? ==>
      && name !in r.value.events.active
      && Get(r.value.events.cancelled, name) == Some(ev.active[name])
      && OthersUnchanged(ev, r.value.events, name)
      && r.value.call == CancelJob(ev.active[name])
    ensures r.Success? && Disjoint(ev) ==> Disjoint(r.value.events)
  {
    var handle :- Lookup(ev.active, name);
    Success(Applied(Events(ev.active - {name}, ev.cancelled[name := handle]), CancelJob(handle)))
  }

  /** Moves a cancelled job back to the active map, keeping its handle, after
      telling the engine to resume it under `rule`. */
  function Reactivate(ev: Events, name: string, rule: Option<Rule>): (r: Result<Applied, Error>)
    ensures r.Success? <==> name in ev.cancelled
    ensures r.Failure? ==> r.error == NullEvent(NoSuchEvent)
    ensures r.Success? ==>
      && name !in r.value.events.cancelled
      && Get(r.value.events.active, name) == Some(ev.cancelled[name])
      && OthersUnchanged(ev, r.value.events, name)
      && r.value.call == ResumeJob(ev.cancelled[name], rule)
    ensures r.Success? && Disjoint(ev) ==> Disjoint(r.value.events)
  {
    var handle :- Lookup(ev.cancelled, name);
    Success(Applied(Events(ev.active[name := handle], ev.cancelled - {name}), ResumeJob(handle, rule)))
  }

  /** Reschedules an active job in place. A name that is not active falls
      back to reactivation with the same rule, whose not-found error
      propagates when the name is in neither map. */
  function Modify(ev: Events, name: string, rule: Rule): (r: Result<Applied, Error>)
    ensures name in ev.active ==> r == Success(Applied(ev, Reschedule(ev.active[name], rule)))
    ensures name !in ev.active && name in ev.cancelled ==>
      && r.Success?
      && name !in r.value.events.cancelled
      && Get(r.value.events.active, name) == Some(ev.cancelled[name])
      && OthersUnchanged(ev, r.value.events, name)
      && r.value.call == ResumeJob(ev.cancelled[name], Some(rule))
    ensures name !in ev.active && name !in ev.cancelled ==> r == Failure(NullEvent(NoSuchEvent))
    ensures r.Success? && Disjoint(ev) ==> Disjoint(r.value.events)
  {
    match Lookup(ev.active, name)
    case Success(handle) => Success(Applied(ev, Reschedule(handle, rule)))
    case Failure(e) =>
      if e.NullEvent? then Reactivate(ev, name, Some(rule)) else Failure(e)
  }

  /** Cancelling an active job and reactivating it gives back the state
      before the cancellation, and the same handle resumes. */
  lemma CancelThenReactivate(ev: Events, name: string, rule: Option<Rule>)
    requires Disjoint(ev) && name in ev.active
    ensures Cancel(ev, name).Success?
    ensures Reactivate(Cancel(ev, name).value.events, name, rule).Success?
    ensures Reactivate(Cancel(ev, name).value.events, name, rule).value
         == Applied(ev, ResumeJob(ev.active[name], rule))
  {
    var c := Cancel(ev, name).value.events;
    var a := Reactivate(c, name, rule).value.events;
    assert a.active == ev.active by {
      assert a.active.Keys == ev.active.Keys;
    }
    assert a.cancelled == ev.cancelled by {
      assert a.cancelled.Keys == ev.cancelled.Keys;
    }
  }

  /** Reactivating a cancelled job and cancelling it again gives back the
      state before the reactivation. */
  lemma ReactivateThenCancel(ev: Events, name: string, rule: Option<Rule>)
    requires Disjoint(ev) && name in ev.cancelled
    ensures Reactivate(ev, name, rule).Success?
    ensures Cancel(Reactivate(ev, name, rule).value.events, name).Success?
    ensures Cancel(Reactivate(ev, name, rule).value.events, name).value
         == Applied(ev, CancelJob(ev.cancelled[name]))
  {
    var a := Reactivate(ev, name, rule).value.events;
    var c := Cancel(a, name).value.events;
    assert c.active == ev.active by {
      assert c.active.Keys == ev.active.Keys;
    }
    assert c.cancelled == ev.cancelled by {
      assert c.cancelled.Keys == ev.cancelled.Keys;
    }
  }

  /** Scheduling a name that is cancelled leaves it in both maps: scheduling
      does not preserve disjointness. */
  lemma ScheduleOverCancelledKeepsBoth(ev: Events, name: string, rule: Rule, action: Action,
                                       handle: Handle)
    requires name in ev.cancelled
    requires CreateEvent(Some(name), Given(rule), Given(action)).Success?
    ensures Schedule(ev, name, Given(rule), Given(action), Some(handle)).Success?
    ensures var e := Schedule(ev, name, Given(rule), Given(action), Some(handle)).value.events;
      name in e.active && name in e.cancelled && !Disjoint(e)
  {
    var e := Schedule(ev, name, Given(rule), Given(action), Some(handle)).value.events;
    assert Get(e.active, name) == Some(handle);
  }
}

=== FILE: event_name.dfy ===
/** The event-name validator (nombreEvento.js). */
module EventName {
  import opened Wrappers
  import opened Errors

  /** The characters JavaScript's `\s` class matches. */
  predicate IsSpace(c: char)
  {
    || c == ' ' || c == '\t' || c == '\n' || c == '\U{000B}' || c == '\U{000C}' || c == '\r'
    || c == '\U{00A0}' || c == '\U{1680}' || ('\U{2000}' <= c <= '\U{200A}')
    || c == '\U{2028}' || c == '\U{2029}' || c == '\U{202F}' || c == '\U{205F}'
    || c == '\U{3000}' || c == '\U{FEFF}'
  }

  /** The characters JavaScript's `\w` class matches: ASCII letters, digits and underscore. */
  predicate IsWordChar(c: char)
  {
    ('a' <= c <= 'z') || ('A' <= c <= 'Z') || ('0' <= c <= '9') || c == '_'
  }

  /** Every whitespace character is also a non-word character, so the
      whitespace check only decides which of two errors is reported. */
  lemma SpaceIsNotWord(c: char)
    ensures IsSpace(c) ==> !IsWordChar(c)
  {
  }

  /** `/\s/.test(s)`. */
  function HasSpace(s: string): (b: bool)
    ensures b <==> exists i :: 0 <= i < |s| && IsSpace(s[i])
  {
    if |s| == 0 then false
    else IsSpace(s[0]) || HasSpace(s[1..])
  }

  /** `/\W/.test(s)`. */
  function HasNonWord(s: string): (b: bool)
    ensures b <==> exists i :: 0 <= i < |s| && !IsWordChar(s[i])
  {
    if |s| == 0 then false
    else !IsWordChar(s[0]) || HasNonWord(s[1..])
  }

  /** Whether a name is one the validator accepts. */
  predicate IsValidName(s: string)
  {
    s != [] && forall i :: 0 <= i < |s| ==> IsWordChar(s[i])
  }

  /** Validates an event name; `None` stands for undefined or null. Checks,
      in order: missing or empty, any whitespace, any non-word character.
      An accepted name is returned unchanged. */
  function CreateName(name: Option<string>): (r: Result<string, Error>)
    ensures r.Success? <==> name.Some? && IsValidName(name.value)
    ensures r.Success? ==> r.value == name.value
    ensures name.None? || name.value == [] ==> r == Failure(InvalidData(MissingName))
    ensures name.Some? && name.value != [] && (exists i :: 0 <= i < |name.value| && IsSpace(name.value[i]))
      ==> r == Failure(InvalidData(NameHasSpace))
    ensures name.Some? && (forall i :: 0 <= i < |name.value| ==> !IsSpace(name.value[i]))
      && (exists i :: 0 <= i < |name.value| && !IsWordChar(name.value[i]))
      ==> r == Failure(InvalidData(NameNotWord))
  {
    if name.None? || name.value == [] then Failure(InvalidData(MissingName))
    else if HasSpace(name.value) then Failure(InvalidData(NameHasSpace))
    else if HasNonWord(name.value) then Failure(InvalidData(NameNotWord))
    else Success(name.value)
  }

  /** Validating an accepted name again accepts it again, unchanged. */
  lemma CreateNameIdempotent(name: Option<string>)
    requires CreateName(name).Success?
    ensures CreateName(Some(CreateName(name).value)) == CreateName(name)
  {
  }

  /** An empty or absent name gets the missing-name error. */
  lemma MissingNames()
    ensures CreateName(Some("")) == Failure(InvalidData(MissingName))
    ensures CreateName(None) == Failure(InvalidData(MissingName))
  {
  }

  /** "my event" gets the whitespace error, although its space is also a
      non-word character. */
  lemma SpacedName()
    ensures CreateName(Some("my event")) == Failure(InvalidData(NameHasSpace))
  {
    assert IsSpace("my event"[2]);
  }

  /** "ev@nt" has no whitespace but a non-word character. */
  lemma SymbolName()
    ensures CreateName(Some("ev@nt")) == Failure(InvalidData(NameNotWord))
  {
    var s := "ev@nt";
    assert forall i :: 0 <= i < |s| ==> s[i] in {'e', 'v', '@', 'n', 't'};
    assert !IsWordChar(s[2]);
  }

  /** An accented letter is a non-word character. */
  lemma AccentedName()
    ensures CreateName(Some("caf\U{00E9}")) == Failure(InvalidData(NameNotWord))
  {
    var s := "caf\U{00E9}";
    assert forall i :: 0 <= i < |s| ==> s[i] in {'c', 'a', 'f', '\U{00E9}'};
    assert !IsWordChar(s[3]);
  }

  /** Letters, digits and underscore are accepted. */
  lemma AcceptedNames()
    ensures CreateName(Some("evento1")) == Success("evento1")
    ensures CreateName(Some("ev_1")) == Success("ev_1")
  {
    assert IsValidName("evento1");
    assert IsValidName("ev_1");
  }
}

=== FILE: event_record.dfy ===
/** The event-record validator (Evento.js). */
module EventRecord {
  import opened Wrappers
  import opened Calendar
  import opened Errors
  import opened EventName

  /** An argument as the validator sees it: falsy, present but of the wrong
      kind (not a RecurrenceRule, not a function), or a proper value. */
  datatype Arg<T> = Missing | Foreign | Given(value: T)

  /** A callback to run when the event fires, as an opaque token. */
  datatype Action = Action(id: nat)

  /** A validated event: its rule, its action and its name. */
  datatype Event = Event(rule: Rule, action: Action, name: string)

  /** Validates the rule (presence, then kind), then the action (presence,
      then kind), then the name; the first failing check decides the error. */
  function CreateEvent(name: Option<string>, rule: Arg<Rule>, action: Arg<Action>): (r: Result<Event, Error>)
    ensures rule.Missing? ==> r == Failure(InvalidData(MissingRule))
    ensures rule.Foreign? ==> r == Failure(InvalidData(ForeignRule))
    ensures rule.Given? && action.Missing? ==> r == Failure(InvalidData(MissingAction))
    ensures rule.Given? && action.Foreign? ==> r == Failure(InvalidData(ForeignAction))
    ensures rule.Given? && action.Given? ==>
      (r.Success? <==> CreateName(name).Success?)
    ensures rule.Given? && action.Given? && r.Failure? ==> r.error == CreateName(name).error
    ensures r.Success? ==> r.value == Event(rule.value, action.value, name.value)
  {
    if rule.Missing? then Failure(InvalidData(MissingRule))
    else if rule.Foreign? then Failure(InvalidData(ForeignRule))
    else if action.Missing? then Failure(InvalidData(MissingAction))
    else if action.Foreign? then Failure(InvalidData(ForeignAction))
    else
      var validName :- CreateName(name);
      Success(Event(rule.value, action.value, validName))
  }
}

=== FILE: rule_data.dfy ===
/** The field-value validator that turns a partial time spec into six field
    values (Regla.js). */
module RuleData {
  import opened Wrappers
  import opened Calendar
  import opened Errors

  /** Whether a field's argument is acceptable: undefined passes by its type,
      null because `Number(null)` is 0, and anything `Number` maps to a number.
      The select-all comparison is against undefined, since the only caller
      passes no second argument, so it adds nothing. */
  predicate IsValidUnit(v: SpecValue)
  {
    v.NullLike? || v.Num?
  }

  /** The value an accepted argument carries into the rule. */
  function Numeric(v: SpecValue): Option<int>
  {
    if v.Num? then Some(v.n) else None
  }

  /** The six values a spec asks for, reading absent keys as undefined. */
  function Requested(spec: Spec): (t: Times)
    ensures forall f :: t.Get(f) == Numeric(ValueOf(spec, f))
  {
    Times(Numeric(ValueOf(spec, Second)), Numeric(ValueOf(spec, Minute)),
          Numeric(ValueOf(spec, Hour)), Numeric(ValueOf(spec, Day)),
          Numeric(ValueOf(spec, Month)), Numeric(ValueOf(spec, Year)))
  }

  /** Validates the six fields in the order second, minute, hour, day, month,
      year; the first refused one decides the error and later ones are not
      looked at. On success every field holds exactly its argument, with no
      range check. */
  function CreateTimes(spec: Spec): (r: Result<Times, Error>)
    ensures r.Success? <==> forall f :: IsValidUnit(ValueOf(spec, f))
    ensures r.Failure? ==>
      && r.error.InvalidData? && r.error.issue.NotNumeric?
      && !IsValidUnit(ValueOf(spec, r.error.issue.field))
      && forall g :: Rank(g) < Rank(r.error.issue.field) ==> IsValidUnit(ValueOf(spec, g))
    ensures r.Success? ==> forall f :: r.value.Get(f) == Numeric(ValueOf(spec, f))
  {
    if !IsValidUnit(ValueOf(spec, Second)) then Failure(InvalidData(NotNumeric(Second)))
    else if !IsValidUnit(ValueOf(spec, Minute)) then Failure(InvalidData(NotNumeric(Minute)))
    else if !IsValidUnit(ValueOf(spec, Hour)) then Failure(InvalidData(NotNumeric(Hour)))
    else if !IsValidUnit(ValueOf(spec, Day)) then Failure(InvalidData(NotNumeric(Day)))
    else if !IsValidUnit(ValueOf(spec, Month)) then Failure(InvalidData(NotNumeric(Month)))
    else if !IsValidUnit(ValueOf(spec, Year)) then Failure(InvalidData(NotNumeric(Year)))
    else Success(Requested(spec))
  }

  /** The select-all marker and numbers far out of calendar range are both
      accepted: the validator checks only that a value is numeric. */
  lemma AcceptsNullAndOutOfRange()
    ensures CreateTimes(map[Second := NullLike, Minute := Num(75), Hour := Num(-3)])
         == Success(Times(None, Some(75), Some(-3), None, None, None))
  {
  }

  /** A refused second is reported even when every other field is refused too. */
  lemma FirstRefusalWins(spec: Spec)
    requires ValueOf(spec, Second).NonNumeric?
    ensures CreateTimes(spec) == Failure(InvalidData(NotNumeric(Second)))
  {
  }
}

=== FILE: rule_manager.dfy ===
/** The rule manager (AdministradorReglas.js): the per-event history of
    select-all requests, the composer that merges a partial time spec into a
    recurrence rule, and the store of last composed rules. */
module RuleManager {
  import opened Wrappers
  import opened Calendar
  import opened Errors
  import opened RuleData

  /** Per event name, the spec keys ever handed in with a null-like value. */
  type History = map<string, set<Field>>

  /** The manager's state: the configured timezone, what `new RecurrenceRule()`
      yields (its defaults belong to the trigger engine), the history and the
      rule store. */
  datatype Rules = Rules(tz: Option<string>, defaultRule: Rule, history: History, store: map<string, Rule>)

  /** The "every value" marker the manager hands out: null, the same value
      that means unset. */
  const FullSelection: SpecValue := NullLike

  function HistoryOf(h: History, name: string): set<Field>
  {
    if name in h then h[name] else {}
  }

  /** The keys of a spec whose value is loosely equal to null. */
  function SelectedAll(spec: Spec): set<Field>
  {
    set f | f in spec && spec[f].NullLike?
  }

  /** Adds every null-like key of the spec to the event's history. Entries are
      never removed, and other events' histories are untouched. */
  function Record(h: History, spec: Spec, name: string): (h': History)
    ensures HistoryOf(h', name) == HistoryOf(h, name) + SelectedAll(spec)
    ensures forall f :: f in HistoryOf(h', name) <==>
      f in HistoryOf(h, name) || (f in spec && spec[f].NullLike?)
    ensures forall n :: n != name ==> HistoryOf(h', n) == HistoryOf(h, n)
  {
    if SelectedAll(spec) == {} then h
    else h[name := HistoryOf(h, name) + SelectedAll(spec)]
  }

  /** Whether the spec fixes a unit: it supplies a number, or the unit's key
      is in the history (in which case the unit is set to the spec's value,
      null when the key is absent). */
  predicate Explicit(f: Field, vals: Times, hist: set<Field>)
  {
    vals.Get(f).Some? || f in hist
  }

  /** Whether a unit counts as having a value when a neighbour is inferred:
      the rule holds one, the spec supplies one, or the unit's spec key is in
      the history. The rule's own key is an English name, which the history
      never holds. */
  predicate HasValue(g: Field, vals: Times, hist: set<Field>, rule: Times)
  {
    rule.Get(g).Some? || vals.Get(g).Some? || g in hist
  }

  predicate CoarserHasValue(f: Field, vals: Times, hist: set<Field>, rule: Times)
  {
    exists g :: g in Coarser(f) && HasValue(g, vals, hist, rule)
  }

  predicate FinerHasValue(f: Field, vals: Times, hist: set<Field>, rule: Times)
  {
    exists g :: g in Finer(f) && HasValue(g, vals, hist, rule)
  }

  /** The value inferred for an unset unit: 0 when a coarser unit has a value,
      the select-all null when only a finer one has, else the original value.
      Applied to an unset unit it can only give 0 or null. */
  function Infer(f: Field, vals: Times, hist: set<Field>, rule: Times): (v: Option<int>)
    ensures rule.Get(f).None? ==> (v == Some(0) <==> CoarserHasValue(f, vals, hist, rule))
    ensures rule.Get(f).None? ==> v == Some(0) || v == None
  {
    if CoarserHasValue(f, vals, hist, rule) then Some(0)
    else if FinerHasValue(f, vals, hist, rule) then None
    else rule.Get(f)
  }

  /** Composes one unit into the rule: an explicit unit takes the spec's value;
      otherwise a unit that already has a value keeps it; otherwise every unit
      but the second is inferred. No other unit changes. */
  function Build(f: Field, vals: Times, hist: set<Field>, rule: Times): (r: Times)
    ensures forall g :: g != f ==> r.Get(g) == rule.Get(g)
    ensures Explicit(f, vals, hist) ==> r.Get(f) == vals.Get(f)
    ensures !Explicit(f, vals, hist) && rule.Get(f).Some? ==> r.Get(f) == rule.Get(f)
    ensures !Explicit(f, vals, hist) && rule.Get(f).None? ==>
      && (r.Get(f) == Some(0) <==> f != Second && CoarserHasValue(f, vals, hist, rule))
      && (r.Get(f) == Some(0) || r.Get(f) == None)
  {
    if Explicit(f, vals, hist) then rule.With(f, vals.Get(f))
    else if f == Second then rule
    else if rule.Get(f).Some? then rule
    else rule.With(f, Infer(f, vals, hist, rule))
  }

  /** What a composed unit ends up holding, stated per unit against the rule
      composition started from: the spec's value if explicit, else the
      existing value, else 0 when some coarser unit had a value before the
      call (never for the second), else null. */
  function Expected(f: Field, vals: Times, hist: set<Field>, base: Times): Option<int>
  {
    if Explicit(f, vals, hist) then vals.Get(f)
    else if base.Get(f).Some? then base.Get(f)
    else if f != Second && CoarserHasValue(f, vals, hist, base) then Some(0)
    else None
  }

  /** The coarser-value test reads only the coarser units of the rule. */
  lemma CoarserOnlyReadsCoarser(f: Field, vals: Times, hist: set<Field>, rule: Times, rule': Times)
    requires forall g :: g in Coarser(f) ==> rule.Get(g) == rule'.Get(g)
    ensures CoarserHasValue(f, vals, hist, rule) == CoarserHasValue(f, vals, hist, rule')
  {
    if CoarserHasValue(f, vals, hist, rule) {
      var g :| g in Coarser(f) && HasValue(g, vals, hist, rule);
      assert HasValue(g, vals, hist, rule');
    }
    if CoarserHasValue(f, vals, hist, rule') {
      var g :| g in Coarser(f) && HasValue(g, vals, hist, rule');
      assert HasValue(g, vals, hist, rule);
    }
  }

  /** The six units composed finest first, as the rule manager does. */
  function BuildAll(vals: Times, hist: set<Field>, base: Times): Times
  {
    var r1 := Build(Second, vals, hist, base);
    var r2 := Build(Minute, vals, hist, r1);
    var r3 := Build(Hour, vals, hist, r2);
    var r4 := Build(Day, vals, hist, r3);
    var r5 := Build(Month, vals, hist, r4);
    Build(Year, vals, hist, r5)
  }

  /** Composing one unit into a rule that still holds, for that unit and every
      coarser one, the values the call started from gives `Expected`. */
  lemma BuildStepMatches(f: Field, vals: Times, hist: set<Field>, rule: Times, base: Times)
    requires rule.Get(f) == base.Get(f)
    requires forall g :: g in Coarser(f) ==> rule.Get(g) == base.Get(g)
    ensures Build(f, vals, hist, rule).Get(f) == Expected(f, vals, hist, base)
  {
    CoarserOnlyReadsCoarser(f, vals, hist, rule, base);
  }

  /** Composing finest first agrees with `Expected` on every unit: a unit's
      inference sees the finer units already composed, but the coarser ones
      as they were before the call. */
  lemma BuildAllMatchesExpected(vals: Times, hist: set<Field>, base: Times)
    ensures forall f :: BuildAll(vals, hist, base).Get(f) == Expected(f, vals, hist, base)
  {
    var r1 := Build(Second, vals, hist, base);
    BuildStepMatches(Second, vals, hist, base, base);
    var r2 := Build(Minute, vals, hist, r1);
    BuildStepMatches(Minute, vals, hist, r1, base);
    var r3 := Build(Hour, vals, hist, r2);
    BuildStepMatches(Hour, vals, hist, r2, base);
    var r4 := Build(Day, vals, hist, r3);
    BuildStepMatches(Day, vals, hist, r3, base);
    var r5 := Build(Month, vals, hist, r4);
    BuildStepMatches(Month, vals, hist, r4, base);
    var r6 := Build(Year, vals, hist, r5);
    BuildStepMatches(Year, vals, hist, r5, base);
    assert r6 == BuildAll(vals, hist, base);
    forall f ensures r6.Get(f) == Expected(f, vals, hist, base) {
      match f
      case Second => assert r6.Get(f) == r1.Get(f);
      case Minute => assert r6.Get(f) == r2.Get(f);
      case Hour => assert r6.Get(f) == r3.Get(f);
      case Day => assert r6.Get(f) == r4.Get(f);
      case Month => assert r6.Get(f) == r5.Get(f);
      case Year =>
    }
  }

  /** The rule composition starts from: the given one, or a fresh rule when
      none is given (a lookup of an unknown name yields undefined). */
  function StartRule(m: Rules, base: Option<Rule>): Rule
  {
    if base.Some? then base.value else m.defaultRule
  }

  /** The manager's state after a composition, and the composed rule or the
      error that stopped it. */
  datatype Composed = Composed(rules: Rules, result: Result<Rule, Error>)

  /** Composes a spec into a rule for an event. The history is updated first,
      so it is updated even when validation then refuses the spec; nothing
      else of the manager changes. On success every unit is as `Expected`
      describes, and a set timezone is kept while an unset one takes the
      manager's. */
  function Compose(m: Rules, spec: Spec, name: string, base: Option<Rule>): (r: Composed)
    ensures r.rules.tz == m.tz && r.rules.defaultRule == m.defaultRule && r.rules.store == m.store
    ensures HistoryOf(r.rules.history, name) == HistoryOf(m.history, name) + SelectedAll(spec)
    ensures forall n :: n != name ==> HistoryOf(r.rules.history, n) == HistoryOf(m.history, n)
    ensures r.result.Success? <==> forall f :: IsValidUnit(ValueOf(spec, f))
    ensures r.result.Failure? ==> r.result == CreateTimes(spec).PropagateFailure()
    ensures r.result.Success? ==>
      && r.result.value.tz == (if StartRule(m, base).tz.Some? then StartRule(m, base).tz else m.tz)
      && forall f :: r.result.value.times.Get(f)
           == Expected(f, Requested(spec), HistoryOf(r.rules.history, name), StartRule(m, base).times)
  {
    var history := Record(m.history, spec, name);
    var m' := m.(history := history);
    match CreateTimes(spec)
    case Failure(e) => Composed(m', Failure(e))
    case Success(vals) =>
      var start := StartRule(m, base);
      var tz := if start.tz.Some? then start.tz else m.tz;
      BuildAllMatchesExpected(vals, HistoryOf(history, name), start.times);
      Composed(m', Success(Rule(BuildAll(vals, HistoryOf(history, name), start.times), tz)))
  }

  /** The stored rule for an event, if any. */
  function Find(m: Rules, name: string): (r: Option<Rule>)
    ensures r.Some? <==> name in m.store
    ensures r.Some? ==> r.value == m.store[name]
  {
    if name in m.store then Some(m.store[name]) else None
  }

  /** Stores a rule for an event; the last write wins and other events'
      rules, the history and the configuration are untouched. */
  function Add(m: Rules, name: string, rule: Rule): (m': Rules)
    ensures Find(m', name) == Some(rule)
    ensures forall n :: n != name ==> Find(m', n) == Find(m, n)
    ensures m'.history == m.history && m'.tz == m.tz && m'.defaultRule == m.defaultRule
  {
    m.(store := m.store[name := rule])
  }

  /** The history only grows, whatever the outcome of the composition. */
  lemma HistoryNeverShrinks(m: Rules, spec: Spec, name: string, base: Option<Rule>, n: string)
    ensures HistoryOf(m.history, n) <= HistoryOf(Compose(m, spec, name, base).rules.history, n)
  {
  }

  /** The second is never inferred: it takes the spec's number, is reset to
      null when its key is in the history, and otherwise keeps the start
      rule's value. */
  lemma SecondNeverInferred(m: Rules, spec: Spec, name: string, base: Option<Rule>)
    requires Compose(m, spec, name, base).result.Success?
    ensures var r := Compose(m, spec, name, base);
      && (ValueOf(spec, Second).Num? ==> r.result.value.times.second == Some(ValueOf(spec, Second).n))
      && (!ValueOf(spec, Second).Num? && Second in HistoryOf(r.rules.history, name) ==>
            r.result.value.times.second == None)
      && (!ValueOf(spec, Second).Num? && Second !in HistoryOf(r.rules.history, name) ==>
            r.result.value.times.second == StartRule(m, base).times.second)
  {
    var r := Compose(m, spec, name, base);
    assert r.result.value.times.Get(Second)
        == Expected(Second, Requested(spec), HistoryOf(r.rules.history, name), StartRule(m, base).times);
  }

  /** No unit is coarser than the year, so an unset year that the spec does
      not fix stays unset: it is never inferred to 0. */
  lemma YearNeverInferredToZero(m: Rules, spec: Spec, name: string, base: Option<Rule>)
    requires Compose(m, spec, name, base).result.Success?
    requires !ValueOf(spec, Year).Num?
    requires Year !in HistoryOf(m.history, name) && Year !in spec
    requires StartRule(m, base).times.year.None?
    ensures Compose(m, spec, name, base).result.value.times.year.None?
  {
    var r := Compose(m, spec, name, base);
    assert r.result.value.times.Get(Year)
        == Expected(Year, Requested(spec), HistoryOf(r.rules.history, name), StartRule(m, base).times);
    assert Coarser(Year) == {};
  }

  /** Inference only ever gives 0 or the select-all null, and gives 0 exactly
      when some coarser unit had a value before the call. */
  lemma InferenceYieldsZeroOrNull(m: Rules, spec: Spec, name: string, base: Option<Rule>, f: Field)
    requires Compose(m, spec, name, base).result.Success?
    requires !ValueOf(spec, f).Num? && f !in HistoryOf(Compose(m, spec, name, base).rules.history, name)
    requires StartRule(m, base).times.Get(f).None?
    ensures var r := Compose(m, spec, name, base);
      var v := r.result.value.times.Get(f);
      && (v == Some(0) || v == None)
      && (v == Some(0) <==>
            f != Second
            && exists g :: Rank(f) < Rank(g)
                 && (StartRule(m, base).times.Get(g).Some? || ValueOf(spec, g).Num?
                     || g in HistoryOf(r.rules.history, name)))
  {
    var r := Compose(m, spec, name, base);
    var hist := HistoryOf(r.rules.history, name);
    var start := StartRule(m, base).times;
    assert r.result.value.times.Get(f) == Expected(f, Requested(spec), hist, start);
    if exists g :: Rank(f) < Rank(g) && (start.Get(g).Some? || ValueOf(spec, g).Num? || g in hist) {
      var g :| Rank(f) < Rank(g) && (start.Get(g).Some? || ValueOf(spec, g).Num? || g in hist);
      assert g in Coarser(f) && HasValue(g, Requested(spec), hist, start);
    }
  }

  /** Inference never depends on the finer units: the branch that reads them
      yields null, which is what the unit already held. */
  lemma FinerUnitsNeverDecide(f: Field, vals: Times, hist: set<Field>, rule: Times, rule': Times)
    requires rule.Get(f).None? && rule'.Get(f).None?
    requires forall g :: g in Coarser(f) ==> rule.Get(g) == rule'.Get(g)
    ensures Infer(f, vals, hist, rule) == Infer(f, vals, hist, rule')
  {
    CoarserOnlyReadsCoarser(f, vals, hist, rule, rule');
  }

  /** Selecting every value of a unit records the unit in the history and
      leaves it null in the composed rule. */
  lemma FullSelectionIsRecorded(m: Rules, spec: Spec, name: string, base: Option<Rule>, f: Field)
    requires f in spec && spec[f] == FullSelection
    requires Compose(m, spec, name, base).result.Success?
    ensures f in HistoryOf(Compose(m, spec, name, base).rules.history, name)
    ensures Compose(m, spec, name, base).result.value.times.Get(f).None?
  {
  }

  /** A unit already in the event's history and omitted from a valid spec is
      reset to null, and stays in the history. */
  lemma HistoryResetsOmittedUnit(m: Rules, spec: Spec, name: string, base: Option<Rule>, f: Field)
    requires f in HistoryOf(m.history, name) && f !in spec
    requires forall g :: IsValidUnit(ValueOf(spec, g))
    ensures var c := Compose(m, spec, name, base);
      && c.result.Success? && c.result.value.times.Get(f).None?
      && f in HistoryOf(c.rules.history, name)
  {
    var c := Compose(m, spec, name, base);
    assert c.result.value.times.Get(f)
        == Expected(f, Requested(spec), HistoryOf(c.rules.history, name), StartRule(m, base).times);
  }

  /** Once a unit was selected "every value" for an event, it is reset to null
      by every later composition for that event that omits it, even after an
      explicit number was composed in between. */
  lemma OmittedSelectedUnitResets(m: Rules, name: string, f: Field, k: int,
                                  spec3: Spec, base2: Option<Rule>, base3: Option<Rule>)
    requires f !in spec3
    requires forall g :: IsValidUnit(ValueOf(spec3, g))
    ensures var c1 := Compose(m, map[f := FullSelection], name, None);
      var c2 := Compose(c1.rules, map[f := Num(k)], name, base2);
      var c3 := Compose(c2.rules, spec3, name, base3);
      && c1.result.Success? && c1.result.value.times.Get(f).None?
      && c2.result.Success? && c2.result.value.times.Get(f) == Some(k)
      && c3.result.Success? && c3.result.value.times.Get(f).None?
  {
    var spec1 := map[f := FullSelection];
    assert forall g :: IsValidUnit(ValueOf(spec1, g));
    var c1 := Compose(m, spec1, name, None);
    FullSelectionIsRecorded(m, spec1, name, None, f);
    var spec2 := map[f := Num(k)];
    assert forall g :: IsValidUnit(ValueOf(spec2, g));
    var c2 := Compose(c1.rules, spec2, name, base2);
    assert c2.result.value.times.Get(f)
        == Expected(f, Requested(spec2), HistoryOf(c2.rules.history, name), StartRule(c1.rules, base2).times);
    assert f in HistoryOf(c2.rules.history, name);
    HistoryResetsOmittedUnit(c2.rules, spec3, name, base3, f);
  }

  /** A spec fixing only the second, on a fresh rule with no history, leaves
      every coarser unit null: the event recurs every minute. */
  lemma FineOnlySpec(m: Rules, name: string, k: int)
    requires HistoryOf(m.history, name) == {}
    requires forall g :: g != Second ==> m.defaultRule.times.Get(g).None?
    ensures Compose(m, map[Second := Num(k)], name, None).result.Success?
    ensures Compose(m, map[Second := Num(k)], name, None).result.value.times
         == Times(Some(k), None, None, None, None, None)
  {
    var spec := map[Second := Num(k)];
    assert forall g :: IsValidUnit(ValueOf(spec, g));
    var r := Compose(m, spec, name, None);
    assert HistoryOf(r.rules.history, name) == {};
    assert Requested(spec) == Times(Some(k), None, None, None, None, None);
    SecondOnlyExpected(k, m.defaultRule.times);
    var t := r.result.value.times;
    assert t == Times(t.Get(Second), t.Get(Minute), t.Get(Hour), t.Get(Day), t.Get(Month), t.Get(Year));
  }

  /** With only the second asked for and nothing coarser set, every unit but
      the second stays null. */
  lemma SecondOnlyExpected(k: int, base: Times)
    requires forall g :: g != Second ==> base.Get(g).None?
    ensures forall g ::
      Expected(g, Times(Some(k), None, None, None, None, None), {}, base) == (if g == Second then Some(k) else None)
  {
    var vals := Times(Some(k), None, None, None, None, None);
    forall g ensures Expected(g, vals, {}, base) == vals.Get(g) {
      assert !CoarserHasValue(g, vals, {}, base);
    }
  }

  /** A spec fixing only the day, on a fresh rule with no history, sets the
      finer minute and hour to 0, keeps the fresh rule's second, and leaves
      the coarser month and year unset. */
  lemma CoarseOnlySpec(m: Rules, name: string, k: int)
    requires HistoryOf(m.history, name) == {}
    requires forall g :: g != Second ==> m.defaultRule.times.Get(g).None?
    ensures Compose(m, map[Day := Num(k)], name, None).result.Success?
    ensures Compose(m, map[Day := Num(k)], name, None).result.value.times
         == Times(m.defaultRule.times.second, Some(0), Some(0), Some(k), None, None)
  {
    var spec := map[Day := Num(k)];
    assert forall g :: IsValidUnit(ValueOf(spec, g));
    var r := Compose(m, spec, name, None);
    assert HistoryOf(r.rules.history, name) == {};
    var t := r.result.value.times;
    var vals := Requested(spec);
    assert vals == Times(None, None, None, Some(k), None, None);
    DayOnlyExpected(k, m.defaultRule.times);
    assert t.Get(Second) == m.defaultRule.times.second;
    assert t.Get(Minute) == Some(0) && t.Get(Hour) == Some(0) && t.Get(Day) == Some(k);
    assert t.Get(Month) == None && t.Get(Year) == None;
    assert t == Times(t.Get(Second), t.Get(Minute), t.Get(Hour), t.Get(Day), t.Get(Month), t.Get(Year));
  }

  lemma DayOnlyExpected(k: int, base: Times)
    requires forall g :: g != Second ==> base.Get(g).None?
    ensures var vals := Times(None, None, None, Some(k), None, None);
      && Expected(Second, vals, {}, base) == base.second
      && Expected(Minute, vals, {}, base) == Some(0)
      && Expected(Hour, vals, {}, base) == Some(0)
      && Expected(Day, vals, {}, base) == Some(k)
      && Expected(Month, vals, {}, base) == None
      && Expected(Year, vals, {}, base) == None
  {
    var vals := Times(None, None, None, Some(k), None, None);
    assert HasValue(Day, vals, {}, base);
    assert Day in Coarser(Minute) && Day in Coarser(Hour);
    assert !CoarserHasValue(Month, vals, {}, base);
    assert !CoarserHasValue(Year, vals, {}, base);
  }
}

=== FILE: wrappers.dfy ===
/** Failure-compatible wrappers used across the model: an optional value and a
    value-or-error result. */
module Wrappers {

  /** A value that may be absent (JavaScript's null or undefined). */
  datatype Option<+T> = None | Some(value: T)

  /** The outcome of an operation that either returns a value or throws an error. */
  datatype Result<+T, +E> = Success(value: T) | Failure(error: E) {

    predicate IsFailure() {
      Failure?
    }

    function PropagateFailure<U>(): Result<U, E>
      requires Failure?
    {
      Failure(error)
    }

    function Extract(): T
      requires Success?
    {
      value
    }
  }
}
